=== FILE: README.md ===
# RIVUGAME page interactions — state-machine model

The RIVUGAME profile page (`RIVUGAME/script.js`) is mostly DOM and canvas
glue. It also holds three small, sequential state machines over integers,
booleans and strings. This project models them as pure step functions over
immutable records and proves properties about them:

- **Typewriter** (`typewriter.dfy`, module `Typewriter`). The headline types
  one of six fixed words a character at a time. It holds the finished word,
  deletes it a character at a time and moves to the next word. One call of
  `type()` is `Step`. Its DOM write is the returned `text` and its
  `setTimeout` re-arm is the returned `delay`.
- **Easter egg** (`easter_egg.dfy`, module `EasterEgg`). A hidden card is
  revealed by a latch (`revealSecret`). Three triggers call it: the 7th
  click on the verified badge, a sliding four-character keyboard buffer
  that spells `RIVU`, and five fast taps on the logo on a mobile device.
  Timers and the console message are returned effects. `Date.now()` is a
  parameter.
- **Cookie banner** (`cookie_banner.dfy`, module `CookieBanner`). The
  `cookiesAccepted` storage item is a consent flag and the `show` class is
  `visible`. The browser history is reduced to whether the current entry is
  `#cookies`. The events are the load-time show check, the 2-second timer
  firing, the accept button, touch start/move/end, and a back navigation.
- `js_strings.dfy` (module `JsStrings`) holds the JavaScript string
  operations these handlers rely on: `substring`, one-argument `slice` and
  `toUpperCase`.

Each handler has a partner: a reachable-state characterisation (the
typewriter phases `At`), a reference definition (`LastN`/`Typed` for the key
buffer, `Burst` for the taps), or an invariant it preserves (`Inv` in both
event machines).

## Model

| member | source | states |
|---|---|---|
| JsStrings.Substring | RIVUGAME/script.js:405-408 | `substring` clamps its indices into the string. When they are in order it is exactly that slice, and from index 0 it is the prefix up to the clamped end. |
| JsStrings.SubstringClamped | RIVUGAME/script.js:405-408 | `substring` depends only on its clamped indices and returns the slice between the smaller and the larger of them, so out-of-order indices are swapped. |
| JsStrings.Slice | RIVUGAME/script.js:605 | `slice(start)` returns a suffix. With a negative start its length is min(-start, length), so `slice(-4)` keeps the last four characters. |
| JsStrings.ToUpper | RIVUGAME/script.js:604 | Upper-casing keeps the length and maps every character through the ASCII letter mapping. |
| Typewriter.Step | RIVUGAME/script.js:402-421 | The step moves `charIndex` by exactly one. The word changes only when a deletion reaches 0, and then to the next word modulo 6. The mode flips exactly at the boundaries. The delay is 2000 iff typing completed the word, 500 iff deleting emptied it, and otherwise 50 while deleting and 150 while typing. The text shown is a prefix of the current word, `charIndex` characters long whenever that lies within the word. |
| Typewriter.StepValid | RIVUGAME/script.js:403-417 | From a reachable state the step reaches a reachable state. The text shown is the first `charIndex` characters of the word now current. |
| Typewriter.AtIsValid | RIVUGAME/script.js:397-399 | Every phase k < 2·|word| of a word is a reachable state, and `PhaseOf` maps it back to k. |
| Typewriter.ValidIsAt | RIVUGAME/script.js:397-399 | Every reachable state is the phase `PhaseOf(s)` of its word, so the reachable states are exactly the phases. |
| Typewriter.StepAt | RIVUGAME/script.js:402-421 | One step advances one phase within a word. From the last phase it goes to phase 0 of the next word. The text shown is the prefix of the word whose length is the new character count. |
| Typewriter.RunWithinWord | RIVUGAME/script.js:404-420 | Within one word, j steps advance the phase by j. |
| Typewriter.WordCycle | RIVUGAME/script.js:412-418 | Typing and deleting a word takes exactly twice its length in steps and ends at the start of the next word. |
| Typewriter.RunWords | RIVUGAME/script.js:395-418 | From the start, the steps spent on the first n words lead to the start of word n mod 6. |
| Typewriter.Periodic | RIVUGAME/script.js:395-399 | After 186 steps (all six words) the typewriter is back in its initial state. |
| Typewriter.RunValid | RIVUGAME/script.js:397-421 | Any number of steps from a reachable state stays reachable, so `wordIndex` stays within the six words and `0 <= charIndex <= |word|`. |
| Typewriter.Animate | RIVUGAME/script.js:402-421 | Running n steps from the start records, for each step i, exactly the text and delay of `type()` from the state i steps in. So it shows only prefixes of the words and waits only 50, 150, 500 or 2000 ms. |
| EasterEgg.Reveal | RIVUGAME/script.js:567-587 | The first call marks the card revealed and not hidden. It schedules the 1000 ms glitch and the 500 ms scroll, and sets a present badge to scale 1 with the star. On an already revealed card it changes nothing and schedules nothing. No trigger counter is touched. |
| EasterEgg.RevealIdempotent | RIVUGAME/script.js:567-570 | A second reveal leaves the state unchanged and schedules nothing. |
| EasterEgg.BadgeClick | RIVUGAME/script.js:590-597 | Without a badge nothing happens. Otherwise the counter goes up by one, the colour follows its parity and the scale is 1 + clicks/10 unless this click revealed the card. The reveal is called exactly when the counter becomes 7. On a hidden card that 7th click shows the card, schedules the glitch and the scroll, and leaves the badge at scale 1 in the secondary colour with the star. Only the reveal sets the star, and the mobile tap listener is untouched. |
| EasterEgg.KeyPress | RIVUGAME/script.js:601-611 | The buffer becomes the last min(4, total) characters of the old buffer plus the upper-cased key. The reveal is called, followed by the console message, exactly when the buffer is `RIVU`. When the reveal is called the state is exactly what the reveal makes of the updated buffer. Without the reveal nothing but the buffer changes, and the tap listener is never touched. |
| EasterEgg.LogoTap | RIVUGAME/script.js:614-630 | Without the mobile listener nothing happens. A tap within 500 ms of the last one adds one to the count, any other tap sets it to 1, and `lastTap` becomes now. Reaching 5 calls the reveal and resets the count to 0, so the count stays below 5. The state is then exactly what the reveal makes of it, with the count reset and `lastTap` now, and the glitch and the scroll are scheduled unless the card was already revealed. Without the reveal nothing but the count and `lastTap` changes, and the listener stays as it was. |
| EasterEgg.Handle | RIVUGAME/script.js:567-630 | A revealed card stays revealed. The reveal sequence is scheduled exactly when the card turns from hidden to revealed. Each trigger preserves `Inv`. |
| EasterEgg.RevealedAtMostOnce | RIVUGAME/script.js:567-586 | Over any sequence of clicks, keys and taps the reveal sequence runs at most once: once if the card ends revealed having started hidden, and never otherwise. |
| EasterEgg.ReplayKeepsInv | RIVUGAME/script.js:561-631 | From the page's start, any events keep `Inv`. Hidden is exactly not revealed, the buffer has at most 4 characters, the tap count is at most 4, and 7 or more clicks imply the card is revealed. |
| EasterEgg.ClicksFromStart | RIVUGAME/script.js:592-596 | After n clicks from the start the counter is n and the colour is n's parity. The reveal is called by the 7th click and no other. The card is revealed, exactly once, iff n >= 7. |
| EasterEgg.LastNOfLastN | RIVUGAME/script.js:604-605 | Truncating the buffer to its last four characters at every key gives the same result as truncating the whole input once. |
| EasterEgg.Keys | RIVUGAME/script.js:603-608 | After any keys from an empty buffer, the buffer is the last min(4, total) characters of all keys upper-cased and concatenated. The reveal is called exactly when at least one key was pressed and the buffer then spells `RIVU`. |
| EasterEgg.TapCounter | RIVUGAME/script.js:615-629 | After any tap times from the start, the count is the length of the current fast burst modulo 5 and `lastTap` is the last time. The last tap calls the reveal exactly when that burst length is a multiple of 5. |
| CookieBanner.ShowCheckHandler | RIVUGAME/script.js:472-481 | Without consent the load-time check schedules the 2000 ms timer. With consent it does nothing. |
| CookieBanner.ShowTimerHandler | RIVUGAME/script.js:474-480 | A firing timer re-checks consent. The banner ends visible iff it was visible already or the timer found no consent, and only then is a `#cookies` entry pushed. Consent is unchanged. Only the timer count, the `show` class and the history entry change, and the page is on `#cookies` afterwards only if it was before or the entry was just pushed. |
| CookieBanner.AcceptHandler | RIVUGAME/script.js:428-436 | With the button present, accepting records consent and hides the banner. It steps back in history iff the current entry is `#cookies`. Nothing else changes. |
| CookieBanner.TouchStartHandler | RIVUGAME/script.js:439-442 | Touch start records the start position and changes nothing else. |
| CookieBanner.TouchMoveHandler | RIVUGAME/script.js:444-450 | A downward drag sets the transform to the drag distance. An upward or zero drag leaves it as it was. |
| CookieBanner.TouchEndHandler | RIVUGAME/script.js:452-462 | The banner stays visible iff it was visible and the drag was at most 100 px. The transform is always cleared. Consent is never recorded by a swipe. History steps back only on a dismissing swipe from `#cookies`. |
| CookieBanner.PopStateHandler | RIVUGAME/script.js:465-469 | A back navigation leaves the banner hidden and otherwise only updates the current entry. |
| CookieBanner.Handle | RIVUGAME/script.js:428-483 | The banner appears only when the show timer finds no consent. Consent is never withdrawn and, within one tab, only the accept button gives it. History steps back only from `#cookies`. Each event preserves visible ⇒ no consent. |
| CookieBanner.NeverShownAfterConsent | RIVUGAME/script.js:430-431 | Over any events in one tab, a visible banner means no consent. Once consent is given the banner never shows again. |
| CookieBanner.ReturningVisitor | RIVUGAME/script.js:473-476 | A visitor with stored consent gets no show timer and never sees the banner. |
| CookieBanner.FirstVisit | RIVUGAME/script.js:472-483 | Without consent, the load check followed by the timer shows the banner on a newly pushed `#cookies` entry. |
| CookieBanner.Swipe | RIVUGAME/script.js:440-462 | A touch start at y0 then a touch end at y1 dismisses a visible banner exactly when y1 - y0 > 100. It clears the transform and leaves consent alone. |

## Left out

- The particle field (RIVUGAME/script.js:164-265, 379-387). It is floating-point physics with `Math.random`, `sqrt`, `atan2`, `cos`, `sin` and canvas drawing.
- The counter easing (50-78). It uses `Math.pow` floats and `requestAnimationFrame` timing.
- The custom cursor, hover effects, smooth scroll, mobile menu and game-card class toggles (4-34, 95-103, 124-161). They are style writes with no logic.
- The IntersectionObserver reveal and the VanillaTilt/gyroscope permission (36-93, 491-532). They are browser APIs and a third-party library.
- Clipboard copy and copy-protection (105-122, 535-558). They use the Clipboard and Selection APIs.
- Profile-picture fetching (349-377). It is network image loading with an `onerror` fallback.
- Device-motion shake, floating blips and pulse effects (269-344). They are sensor input and timer effects.
- The redirection overlay on a click of the revealed card (633-645). It is a timer followed by `window.open`.
- Timers are not run. A `setTimeout` is a returned delay or effect, and the cookie timer firing is an explicit event.
- `localStorage` is the `consent` flag. `history` is the `onCookiesEntry` flag, the `PushCookiesEntry`/`HistoryBack` effects and a `PopState` event that carries whether the new entry is `#cookies`.
- The page is assumed to have the `#typewriter` element, the egg card and the cookie banner. Without `#typewriter` the first `type()` call throws at line 405 or 408 and never re-arms its timer, while `Step` and `Run` go on. Without the others the source throws. A missing badge, accept button, logo or non-mobile device is modelled.
- JsStrings.ToUpper: maps only the ASCII letters. JavaScript's full Unicode case mapping (for example `ß` to `SS`, which changes the length) is not modelled.
- EasterEgg.BadgeClick: states the scale as exact tenths (`1 + clicks * 0.1` times ten). The source computes it in floating point, so the CSS text can carry rounding digits. The page's initial unset transform is identified with `scale(1)`.
- CookieBanner.TouchMoveHandler: the transform keeps only the vertical drag distance. The constant `translateX(-50%)` part of the CSS string is not represented.
- The typewriter's words are ASCII, so JavaScript's UTF-16 `length` equals the number of `char`s.
- EasterEgg.KeyPress: the buffer keeps the last four Unicode scalar values, while JavaScript's `slice(-4)` keeps the last four UTF-16 code units. They differ when a key lies outside the Basic Multilingual Plane. For example, buffer `RI` and key `😀` give 3 `char`s here, but 4 code units in the source: `R`, `I` and a surrogate pair. With keys `😀`, `A`, `B`, `C` the model keeps `😀ABC`, while the source keeps a lone low surrogate followed by `ABC`, a string no Dafny string can hold. Whether the buffer equals `RIVU` is the same either way: `RIVU` is four ASCII characters, and JavaScript's last four units can spell it only if the last four scalar values do.
- EasterEgg.Keys: states the last min(4, total) scalar values of the typed keys, not code units. It differs from the source's buffer for keys outside the Basic Multilingual Plane, for the reason given under EasterEgg.KeyPress.
- CookieBanner.TouchEndHandler: subtracts the two `clientY` values as exact reals. The source subtracts doubles, and the rounded difference can sit at 100 when the exact one is just above it. For example, y0 = 1e-14 and y1 = 100 + 2^-46 dismiss here but not in the source. Floating point is not modelled.
- CookieBanner.Swipe: the threshold `y1 - y0 > 100` is over exact reals, not the source's rounded double difference. See CookieBanner.TouchEndHandler.
- CookieBanner.NeverShownAfterConsent: treats `localStorage` as private to one page. It is in fact shared by all same-origin tabs, and the script has no `storage` listener. Consent given in another tab while the banner shows here leaves it visible with consent stored, which breaks visible ⇒ no consent. The invariant holds for a single tab only.
- CookieBanner.Handle: "only the accept button gives consent" holds for a single tab. A write from another tab, which the timer's re-check at line 476 would see, is not an event of the model.

=== FILE: cookie_banner.dfy ===
/** The cookie-consent banner. `localStorage`'s `cookiesAccepted` item is a
    boolean consent flag, the banner's `show` class is `visible`, and the
    browser history is reduced to whether the current entry is the
    `#cookies` one; a pushed entry, a `history.back()` and the 2-second
    show timer are returned effects, and the timer firing and a back
    navigation arrive as events. */
module CookieBanner {

  const ShowDelayMs: nat := 2000
  const DismissDrag: real := 100.0   // pixels the banner must be dragged down to dismiss

  /** The banner's inline `transform`: cleared, or following a downward drag. */
  datatype Transform = Cleared | DraggedDown(px: real)

  datatype Banner = Banner(
    consent: bool,          // `cookiesAccepted` is set
    visible: bool,          // the banner has the `show` class
    transform: Transform,
    touchStartY: real,
    pendingTimers: nat,     // show timers scheduled and not yet fired
    onCookiesEntry: bool,   // `window.location.hash` is `#cookies`
    hasAcceptButton: bool)

  datatype Effect =
    | ScheduleShow(ms: nat)   // the delayed final check
    | PushCookiesEntry        // `history.pushState` of the `#cookies` entry
    | HistoryBack

  datatype Event =
    | ShowCheck                  // `showCookieBanner()`, run once when the script loads
    | ShowTimerFired
    | AcceptClicked
    | TouchStart(y: real)
    | TouchMove(y: real)
    | TouchEnd(y: real)
    | PopState(atCookies: bool)  // a back navigation, landing on an entry with or without `#cookies`

  datatype Outcome = Outcome(next: Banner, effects: seq<Effect>)

  /** The banner as the page loads: hidden, undragged, no timer yet. */
  function Load(consent: bool, atCookies: bool, hasAcceptButton: bool): Banner {
    Banner(consent, false, Cleared, 0.0, 0, atCookies, hasAcceptButton)
  }

  /** The banner is only ever shown to a visitor who has not consented. */
  predicate Inv(b: Banner) {
    b.visible ==> !b.consent
  }

  /** `showCookieBanner`: without consent, schedule the delayed check. */
  function ShowCheckHandler(b: Banner): (o: Outcome)
    ensures !b.consent ==> o.next == b.(pendingTimers := b.pendingTimers + 1)
    ensures !b.consent ==> o.effects == [ScheduleShow(ShowDelayMs)]
    ensures b.consent ==> o == Outcome(b, [])
  {
    if !b.consent then Outcome(b.(pendingTimers := b.pendingTimers + 1), [ScheduleShow(ShowDelayMs)])
    else Outcome(b, [])
  }

  /** The show timer fires and checks consent once more. */
  function ShowTimerHandler(b: Banner): (o: Outcome)
    ensures b.pendingTimers == 0 ==> o == Outcome(b, [])
    ensures b.pendingTimers > 0 ==> o.next.pendingTimers == b.pendingTimers - 1
    ensures o.next.visible <==> b.visible || (b.pendingTimers > 0 && !b.consent)
    ensures o.effects != [] <==> b.pendingTimers > 0 && !b.consent
    ensures o.effects != [] ==> o.effects == [PushCookiesEntry] && o.next.onCookiesEntry
    ensures o.next.consent == b.consent
    // only the timer count, the `show` class and the history entry change
    ensures o.next == b.(pendingTimers := o.next.pendingTimers, visible := o.next.visible,
                         onCookiesEntry := o.next.onCookiesEntry)
    // the page lands on `#cookies` only through the entry it pushes
    ensures o.effects == [] ==> o.next.onCookiesEntry == b.onCookiesEntry
  {
    if b.pendingTimers == 0 then Outcome(b, [])
    else
      var fired := b.(pendingTimers := b.pendingTimers - 1);
      if !fired.consent then Outcome(fired.(visible := true, onCookiesEntry := true), [PushCookiesEntry])
      else Outcome(fired, [])
  }

  /** The accept button: record consent, hide, and leave the `#cookies` entry. */
  function AcceptHandler(b: Banner): (o: Outcome)
    ensures !b.hasAcceptButton ==> o == Outcome(b, [])
    ensures b.hasAcceptButton ==> o.next.consent && !o.next.visible
    ensures o.effects == (if b.hasAcceptButton && b.onCookiesEntry then [HistoryBack] else [])
    ensures o.next == b.(consent := o.next.consent, visible := o.next.visible)
  {
    if !b.hasAcceptButton then Outcome(b, [])
    else
      var accepted := b.(consent := true, visible := false);
      Outcome(accepted, if b.onCookiesEntry then [HistoryBack] else [])
  }

  function TouchStartHandler(b: Banner, y: real): (o: Outcome)
    ensures o.next == b.(touchStartY := y) && o.effects == []
  {
    Outcome(b.(touchStartY := y), [])
  }

  /** The banner follows a downward drag and ignores an upward one. */
  function TouchMoveHandler(b: Banner, y: real): (o: Outcome)
    ensures y - b.touchStartY > 0.0 ==> o.next.transform == DraggedDown(y - b.touchStartY)
    ensures y - b.touchStartY <= 0.0 ==> o.next.transform == b.transform
    ensures o.next == b.(transform := o.next.transform) && o.effects == []
    ensures o.next.transform.DraggedDown? ==> o.next.transform.px > 0.0 || b.transform.DraggedDown?
  {
    var diff := y - b.touchStartY;
    if diff > 0.0 then Outcome(b.(transform := DraggedDown(diff)), []) else Outcome(b, [])
  }

  /** Lifting the finger dismisses the banner after a drag of more than 100
      pixels, and always clears the transform. Consent is not recorded. */
  function TouchEndHandler(b: Banner, y: real): (o: Outcome)
    ensures o.next.transform == Cleared
    ensures o.next.visible <==> b.visible && y - b.touchStartY <= DismissDrag
    ensures o.next.consent == b.consent
    ensures o.effects == (if y - b.touchStartY > DismissDrag && b.onCookiesEntry then [HistoryBack] else [])
    ensures o.next == b.(visible := o.next.visible, transform := Cleared)
  {
    var diff := y - b.touchStartY;
    var dismissed := if diff > DismissDrag then b.(visible := false) else b;
    var effects := if diff > DismissDrag && b.onCookiesEntry then [HistoryBack] else [];
    Outcome(dismissed.(transform := Cleared), effects)
  }

  /** Back navigation hides a visible banner. */
  function PopStateHandler(b: Banner, atCookies: bool): (o: Outcome)
    ensures !o.next.visible
    ensures o.next == b.(visible := false, onCookiesEntry := atCookies) && o.effects == []
  {
    var hidden := if b.visible then b.(visible := false) else b;
    Outcome(hidden.(onCookiesEntry := atCookies), [])
  }

  function Handle(b: Banner, ev: Event): (o: Outcome)
    // the banner appears only when the show timer finds no consent
    ensures !b.visible && o.next.visible ==> ev.ShowTimerFired? && !b.consent
    // consent is never withdrawn, and only the accept button gives it
    ensures b.consent ==> o.next.consent
    ensures !b.consent && o.next.consent ==> ev.AcceptClicked?
    // the history is only ever stepped back from the `#cookies` entry
    ensures HistoryBack in o.effects ==> b.onCookiesEntry
    ensures Inv(b) ==> Inv(o.next)
  {
    match ev
    case ShowCheck => ShowCheckHandler(b)
    case ShowTimerFired => ShowTimerHandler(b)
    case AcceptClicked => AcceptHandler(b)
    case TouchStart(y) => TouchStartHandler(b, y)
    case TouchMove(y) => TouchMoveHandler(b, y)
    case TouchEnd(y) => TouchEndHandler(b, y)
    case PopState(atCookies) => PopStateHandler(b, atCookies)
  }

  function Replay(b: Banner, evs: seq<Event>): Outcome
    decreases |evs|
  {
    if |evs| == 0 then Outcome(b, [])
    else
      var before := Replay(b, evs[..|evs| - 1]);
      var o := Handle(before.next, evs[|evs| - 1]);
      Outcome(o.next, before.effects + o.effects)
  }

  /** From page load, whatever happens, a visible banner means no consent. */
  lemma {:induction false} NeverShownAfterConsent(b: Banner, evs: seq<Event>)
    requires Inv(b)
    ensures Inv(Replay(b, evs).next)
    ensures b.consent ==> Replay(b, evs).next.consent && !Replay(b, evs).next.visible
    decreases |evs|
  {
    if |evs| != 0 {
      NeverShownAfterConsent(b, evs[..|evs| - 1]);
    }
  }

  /** A visitor who consented on an earlier visit never sees the banner: the
      load-time check schedules nothing and no later event shows it. */
  lemma ReturningVisitor(atCookies: bool, hasAcceptButton: bool, evs: seq<Event>)
    ensures Handle(Load(true, atCookies, hasAcceptButton), ShowCheck).effects == []
    ensures !Replay(Load(true, atCookies, hasAcceptButton), evs).next.visible
  {
    NeverShownAfterConsent(Load(true, atCookies, hasAcceptButton), evs);
  }

  /** A first visitor sees the banner once the show timer fires, on a newly
      pushed `#cookies` entry. */
  lemma FirstVisit(atCookies: bool, hasAcceptButton: bool)
    ensures var o := Replay(Load(false, atCookies, hasAcceptButton), [ShowCheck, ShowTimerFired]);
            o.next.visible && o.next.onCookiesEntry &&
            o.effects == [ScheduleShow(ShowDelayMs), PushCookiesEntry]
  {
  }

  /** A swipe — touch start at y0, touch end at y1 — dismisses a visible
      banner exactly when it went down by more than 100 pixels, and leaves
      the transform cleared either way. */
  lemma Swipe(b: Banner, y0: real, y1: real)
    requires b.visible
    ensures var o := Replay(b, [TouchStart(y0), TouchEnd(y1)]);
            (o.next.visible <==> y1 - y0 <= DismissDrag) &&
            o.next.transform == Cleared && o.next.consent == b.consent
  {
    var evs: seq<Event> := [TouchStart(y0), TouchEnd(y1)];
    var first := evs[..1];
    assert first[..0] == [];
    assert Replay(b, first[..0]).next == b;
    assert Replay(b, first).next == Handle(b, TouchStart(y0)).next == b.(touchStartY := y0);
    assert Replay(b, evs).next == Handle(b.(touchStartY := y0), TouchEnd(y1)).next;
  }
}

=== FILE: easter_egg.dfy ===
/** The hidden Instagram card and the three independent triggers that reveal
    it: seven clicks on the verified badge, the typed code "RIVU", and five
    fast taps on the logo on a mobile device. Timers, class-list writes and
    the console become returned effects; `Date.now()` is a parameter. */
module EasterEgg {
  import JsStrings

  const SecretCode: string := "RIVU"
  const RevealClicks: nat := 7
  const RevealTaps: nat := 5
  const TapWindow: int := 500       // milliseconds between two taps of one burst
  const GlitchMs: nat := 1000       // how long the page shakes
  const ScrollDelayMs: nat := 500   // delay before the card is scrolled into view
  const NeutralScale: nat := 10     // CSS `scale(1)`, in tenths

  /** The badge colour, `var(--primary)` or `var(--secondary)` once clicked. */
  datatype Color = Unstyled | Primary | Secondary

  /** The verified badge when the page has one. `scaleTenths` is its CSS
      scale factor times ten; `star` says it shows the star glyph and the
      "SECRET PROTOCOL ACTIVATED" title. */
  datatype BadgeSlot = Absent | Shown(scaleTenths: nat, color: Color, star: bool)

  /** The card's two classes `easter-egg-hidden` and `easter-egg-revealed`. */
  datatype Card = Card(hidden: bool, revealed: bool)

  datatype Effect =
    | ShakeGlitch(ms: nat)          // `mobile-shake-glitch` on the body, removed after ms
    | ScrollToCard(afterMs: nat)    // smooth scroll to the card after afterMs
    | AccessOverrideLog             // the console message of the keyboard trigger

  /** Everything the triggers keep between events. `tapsEnabled` is whether
      the page runs on a mobile device and has a logo. */
  datatype Egg = Egg(card: Card, badge: BadgeSlot, clicks: nat, inputCode: string,
                     tapsEnabled: bool, logoTaps: nat, lastTap: int)

  /** What one handler leaves behind: the next state, whether it called the
      reveal function, and the effects it scheduled. */
  datatype Outcome = Outcome(next: Egg, revealCalled: bool, effects: seq<Effect>)

  datatype Event = BadgeClicked | KeyDown(key: string) | LogoTapped(now: int)

  function Start(hasBadge: bool, tapsEnabled: bool): Egg {
    Egg(Card(true, false), if hasBadge then Shown(NeutralScale, Unstyled, false) else Absent,
        0, "", tapsEnabled, 0, 0)
  }

  /** What holds between events. */
  predicate Inv(e: Egg) {
    && e.card.hidden == !e.card.revealed
    && |e.inputCode| <= |SecretCode|
    && e.logoTaps < RevealTaps
    && (e.badge.Shown? && e.badge.star ==> e.card.revealed)
    && (e.badge.Absent? ==> e.clicks == 0)
    && (e.clicks >= RevealClicks ==> e.card.revealed)
    && (!e.tapsEnabled ==> e.logoTaps == 0)
  }

  /** How many times the reveal sequence ran, judged by its glitch effects. */
  function Reveals(fx: seq<Effect>): nat {
    if |fx| == 0 then 0 else Reveals(fx[..|fx| - 1]) + (if fx[|fx| - 1].ShakeGlitch? then 1 else 0)
  }

  lemma {:induction false} RevealsAppend(a: seq<Effect>, b: seq<Effect>)
    ensures Reveals(a + b) == Reveals(a) + Reveals(b)
    decreases |b|
  {
    if |b| == 0 {
      assert a + b == a;
    } else {
      var ab := a + b;
      var b' := b[..|b| - 1];
      assert ab[..|ab| - 1] == a + b';
      assert ab[|ab| - 1] == b[|b| - 1];
      RevealsAppend(a, b');
    }
  }

  /** What the reveal schedules: the page shakes, then scrolls to the card. */
  const RevealEffects: seq<Effect> := [ShakeGlitch(GlitchMs), ScrollToCard(ScrollDelayMs)]

  lemma RevealEffectsCount()
    ensures Reveals(RevealEffects) == 1
    ensures Reveals(RevealEffects + [AccessOverrideLog]) == 1
  {
    assert RevealEffects[..1] == [ShakeGlitch(GlitchMs)];
    assert [ShakeGlitch(GlitchMs)][..0] == [];
    RevealsAppend(RevealEffects, [AccessOverrideLog]);
    assert [AccessOverrideLog][..0] == [];
  }

  /** `revealSecret`: a latch on the card's `easter-egg-revealed` class. */
  function Reveal(e: Egg): (r: Outcome)
    ensures r.revealCalled
    ensures r.next.card.revealed
    ensures e.card.revealed ==> r.next == e && r.effects == []
    ensures !e.card.revealed ==> !r.next.card.hidden
    ensures !e.card.revealed ==> r.effects == RevealEffects
    ensures !e.card.revealed && e.badge.Shown? ==>
              r.next.badge == Shown(NeutralScale, e.badge.color, true)
    ensures e.badge.Absent? ==> r.next.badge.Absent?
    // the counters of the triggers are untouched
    ensures r.next == e.(card := r.next.card, badge := r.next.badge)
    ensures Reveals(r.effects) == if e.card.revealed then 0 else 1
  {
    if e.card.revealed then Outcome(e, true, [])
    else
      RevealEffectsCount();
      var badge := if e.badge.Shown? then e.badge.(scaleTenths := NeutralScale, star := true) else Absent;
      Outcome(e.(card := Card(false, true), badge := badge), true,
              RevealEffects)
  }

  /** Revealing twice is revealing once: the second call changes nothing and
      schedules nothing. */
  lemma RevealIdempotent(e: Egg)
    ensures Reveal(Reveal(e).next).next == Reveal(e).next
    ensures Reveal(Reveal(e).next).effects == []
  {
  }

  /** Trigger 1: a click on the badge. Without a badge there is no listener. */
  function BadgeClick(e: Egg): (o: Outcome)
    ensures e.badge.Absent? ==> o == Outcome(e, false, [])
    ensures e.badge.Shown? ==> o.next.clicks == e.clicks + 1 && o.next.badge.Shown?
    ensures e.badge.Shown? ==> o.next.badge.color == if o.next.clicks % 2 == 0 then Primary else Secondary
    // the click scale 1 + clicks * 0.1 survives unless this click revealed the card
    ensures e.badge.Shown? && !(o.revealCalled && !e.card.revealed) ==>
              o.next.badge.scaleTenths == NeutralScale + o.next.clicks
    ensures o.revealCalled <==> e.badge.Shown? && o.next.clicks == RevealClicks
    ensures o.revealCalled ==> o.next.card.revealed
    // the 7th click runs the whole reveal: glitch and scroll, badge at scale 1 with the star
    ensures o.revealCalled ==> o.effects == (if e.card.revealed then [] else RevealEffects)
    ensures o.revealCalled && !e.card.revealed ==>
              o.next.card == Card(false, true) && o.next.badge == Shown(NeutralScale, Secondary, true)
    ensures !o.revealCalled ==> o.next.card == e.card && o.effects == []
    ensures o.next.inputCode == e.inputCode && o.next.logoTaps == e.logoTaps && o.next.lastTap == e.lastTap
    // a click only restyles the badge; the star comes from the reveal alone
    ensures e.badge.Shown? && !o.revealCalled ==> o.next.badge.star == e.badge.star
    ensures o.next.tapsEnabled == e.tapsEnabled
    ensures Inv(e) ==> Inv(o.next)
  {
    if e.badge.Absent? then Outcome(e, false, [])
    else
      var clicks := e.clicks + 1;
      var color := if clicks % 2 == 0 then Primary else Secondary;
      var clicked := e.(clicks := clicks, badge := e.badge.(scaleTenths := NeutralScale + clicks, color := color));
      if clicks == RevealClicks then Reveal(clicked) else Outcome(clicked, false, [])
  }

  /** Trigger 2: a key press appends the upper-cased key and keeps the last
      four characters. */
  function KeyPress(e: Egg, key: string): (o: Outcome)
    ensures |o.next.inputCode| == JsStrings.Min(|SecretCode|, |e.inputCode| + |key|)
    ensures o.next.inputCode ==
              (e.inputCode + JsStrings.ToUpper(key))[|e.inputCode| + |key| - |o.next.inputCode|..]
    ensures o.revealCalled <==> o.next.inputCode == SecretCode
    ensures o.revealCalled ==> o.next.card.revealed
    ensures !o.revealCalled ==> o.next.card == e.card && o.effects == []
    ensures o.revealCalled && !e.card.revealed ==>
              o.effects == [ShakeGlitch(GlitchMs), ScrollToCard(ScrollDelayMs), AccessOverrideLog]
    ensures o.revealCalled && e.card.revealed ==> o.effects == [AccessOverrideLog]
    // the code runs the whole reveal on the updated buffer
    ensures o.revealCalled ==> o.next == Reveal(e.(inputCode := o.next.inputCode)).next
    ensures o.next.clicks == e.clicks && o.next.logoTaps == e.logoTaps && o.next.lastTap == e.lastTap
    // without a reveal only the buffer changes
    ensures !o.revealCalled ==> o.next == e.(inputCode := o.next.inputCode)
    ensures o.next.tapsEnabled == e.tapsEnabled
    ensures Inv(e) ==> Inv(o.next)
  {
    var code := JsStrings.Slice(e.inputCode + JsStrings.ToUpper(key), -|SecretCode|);
    var typed := e.(inputCode := code);
    if code == SecretCode then
      var r := Reveal(typed);
      Outcome(r.next, true, r.effects + [AccessOverrideLog])
    else Outcome(typed, false, [])
  }

  /** Trigger 3: a touch on the logo at time `now`. Only on a mobile device
      with a logo is there a listener. */
  function LogoTap(e: Egg, now: int): (o: Outcome)
    ensures !e.tapsEnabled ==> o == Outcome(e, false, [])
    ensures e.tapsEnabled ==> o.next.lastTap == now
    ensures o.revealCalled <==> e.tapsEnabled && now - e.lastTap < TapWindow && e.logoTaps + 1 == RevealTaps
    ensures o.revealCalled ==> o.next.card.revealed && o.next.logoTaps == 0
    // the 5th tap runs the whole reveal and then resets the count
    ensures o.revealCalled ==> o.effects == (if e.card.revealed then [] else RevealEffects)
    ensures o.revealCalled ==> o.next == Reveal(e).next.(logoTaps := 0, lastTap := now)
    ensures e.tapsEnabled && !o.revealCalled ==>
              o.next.logoTaps == if now - e.lastTap < TapWindow then e.logoTaps + 1 else 1
    ensures !o.revealCalled ==> o.next.card == e.card && o.effects == []
    ensures e.logoTaps < RevealTaps ==> o.next.logoTaps < RevealTaps
    ensures o.next.clicks == e.clicks && o.next.inputCode == e.inputCode
    // without a reveal only the tap counter and the last tap time change
    ensures !o.revealCalled ==> o.next == e.(logoTaps := o.next.logoTaps, lastTap := o.next.lastTap)
    ensures o.next.tapsEnabled == e.tapsEnabled
    ensures Inv(e) ==> Inv(o.next)
  {
    if !e.tapsEnabled then Outcome(e, false, [])
    else
      var taps := if now - e.lastTap < TapWindow then e.logoTaps + 1 else 1;
      var tapped := e.(logoTaps := taps, lastTap := now);
      if taps == RevealTaps then
        var r := Reveal(tapped);
        Outcome(r.next.(logoTaps := 0), true, r.effects)
      else Outcome(tapped, false, [])
  }

  function Handle(e: Egg, ev: Event): (o: Outcome)
    // the card, once revealed, stays revealed
    ensures e.card.revealed ==> o.next.card.revealed
    // the reveal sequence runs exactly when the card turns from hidden to revealed
    ensures Reveals(o.effects) == if !e.card.revealed && o.next.card.revealed then 1 else 0
    ensures Inv(e) ==> Inv(o.next)
  {
    match ev
    case BadgeClicked => BadgeClick(e)
    case KeyDown(key) =>
      RevealEffectsCount();
      KeyPress(e, key)
    case LogoTapped(now) => LogoTap(e, now)
  }

  /** The state after a sequence of events, with every effect they scheduled. */
  function Replay(e: Egg, evs: seq<Event>): Outcome
    decreases |evs|
  {
    if |evs| == 0 then Outcome(e, false, [])
    else
      var before := Replay(e, evs[..|evs| - 1]);
      var o := Handle(before.next, evs[|evs| - 1]);
      Outcome(o.next, before.revealCalled || o.revealCalled, before.effects + o.effects)
  }

  /** Whatever the triggers do, the reveal sequence runs at most once: once
      if the card ended revealed having started hidden, and never otherwise. */
  lemma {:induction false} RevealedAtMostOnce(e: Egg, evs: seq<Event>)
    ensures e.card.revealed ==> Replay(e, evs).next.card.revealed
    ensures Reveals(Replay(e, evs).effects) ==
              if !e.card.revealed && Replay(e, evs).next.card.revealed then 1 else 0
    decreases |evs|
  {
    if |evs| != 0 {
      var before := Replay(e, evs[..|evs| - 1]);
      RevealedAtMostOnce(e, evs[..|evs| - 1]);
      var o := Handle(before.next, evs[|evs| - 1]);
      RevealsAppend(before.effects, o.effects);
    }
  }

  /** The invariant holds from the start, whatever the events. */
  lemma {:induction false} ReplayKeepsInv(hasBadge: bool, tapsEnabled: bool, evs: seq<Event>)
    ensures Inv(Replay(Start(hasBadge, tapsEnabled), evs).next)
    decreases |evs|
  {
    if |evs| != 0 {
      ReplayKeepsInv(hasBadge, tapsEnabled, evs[..|evs| - 1]);
    }
  }

  // ---------------------------------------------------------------------
  // Trigger 1 in isolation: n clicks on the badge.
  // ---------------------------------------------------------------------

  function Clicks(e: Egg, n: nat): Outcome
    decreases n
  {
    if n == 0 then Outcome(e, false, [])
    else
      var before := Clicks(e, n - 1);
      var o := BadgeClick(before.next);
      Outcome(o.next, o.revealCalled, before.effects + o.effects)
  }

  /** From a hidden card and an untouched badge, n badge clicks leave the
      counter at n and the colour at n's parity; the reveal is called by the
      7th click and no other, and the card is revealed, once, exactly when
      there have been at least 7. */
  lemma {:induction false} ClicksFromStart(e: Egg, n: nat)
    requires e.badge.Shown? && e.clicks == 0 && !e.card.revealed
    ensures Clicks(e, n).next.clicks == n
    ensures Clicks(e, n).next.badge.Shown?
    ensures n > 0 ==> Clicks(e, n).next.badge.color == if n % 2 == 0 then Primary else Secondary
    ensures Clicks(e, n).revealCalled <==> n == RevealClicks
    ensures Clicks(e, n).next.card.revealed <==> n >= RevealClicks
    ensures Reveals(Clicks(e, n).effects) == if n >= RevealClicks then 1 else 0
    decreases n
  {
    if n != 0 {
      var before := Clicks(e, n - 1);
      ClicksFromStart(e, n - 1);
      var o := BadgeClick(before.next);
      RevealsAppend(before.effects, o.effects);
    }
  }

  // ---------------------------------------------------------------------
  // Trigger 2 in isolation: a sequence of key presses.
  // ---------------------------------------------------------------------

  /** The last min(n, |s|) characters of s. */
  function LastN(s: string, n: nat): string {
    s[|s| - JsStrings.Min(n, |s|)..]
  }

  /** Everything typed so far, upper-cased and concatenated. */
  function Typed(keys: seq<string>): string
    decreases |keys|
  {
    if |keys| == 0 then "" else Typed(keys[..|keys| - 1]) + JsStrings.ToUpper(keys[|keys| - 1])
  }

  /** Keeping the last n characters of a prefix first does not change the
      last n characters of the whole. */
  lemma LastNOfLastN(a: string, b: string, n: nat)
    ensures LastN(LastN(a, n) + b, n) == LastN(a + b, n)
  {
  }

  /** A sequence of key presses from an empty buffer. The buffer is then
      the last min(4, total) characters of everything typed, and the reveal
      is called by the last press exactly when those spell "RIVU" (never
      when no key was pressed). */
  function Keys(e: Egg, keys: seq<string>): (o: Outcome)
    requires e.inputCode == ""
    ensures o.next.inputCode == LastN(Typed(keys), |SecretCode|)
    ensures o.revealCalled <==> keys != [] && o.next.inputCode == SecretCode
    decreases |keys|
  {
    if |keys| == 0 then Outcome(e, false, [])
    else
      LastNOfLastN(Typed(keys[..|keys| - 1]), JsStrings.ToUpper(keys[|keys| - 1]), |SecretCode|);
      KeyPress(Keys(e, keys[..|keys| - 1]).next, keys[|keys| - 1])
  }

  // ---------------------------------------------------------------------
  // Trigger 3 in isolation: logo taps at given times.
  // ---------------------------------------------------------------------

  function Taps(e: Egg, times: seq<int>): Outcome
    decreases |times|
  {
    if |times| == 0 then Outcome(e, false, [])
    else LogoTap(Taps(e, times[..|times| - 1]).next, times[|times| - 1])
  }

  /** The time of the tap before the last one, 0 before the first tap. */
  function PreviousTap(times: seq<int>): int
    requires |times| > 0
  {
    if |times| == 1 then 0 else times[|times| - 2]
  }

  /** The length of the current burst: the last tap, and the taps before it
      back to (and including) the first one that came late. */
  function Burst(times: seq<int>): nat
    decreases |times|
  {
    if |times| == 0 then 0
    else if times[|times| - 1] - PreviousTap(times) < TapWindow then Burst(times[..|times| - 1]) + 1
    else 1
  }

  /** On a mobile device, after any taps from the start (no taps counted,
      last tap at time 0) the tap counter is
      the length of the current burst modulo 5, and the reveal is called by
      the last tap exactly when that burst is a whole number of fives. */
  lemma {:induction false} TapCounter(e: Egg, times: seq<int>)
    requires e.tapsEnabled && e.logoTaps == 0 && e.lastTap == 0
    ensures Taps(e, times).next.logoTaps == Burst(times) % RevealTaps
    ensures Taps(e, times).next.tapsEnabled
    ensures |times| > 0 ==> Taps(e, times).next.lastTap == times[|times| - 1]
    ensures |times| > 0 ==> (Taps(e, times).revealCalled <==> Burst(times) % RevealTaps == 0)
    decreases |times|
  {
    if |times| != 0 {
      TapCounter(e, times[..|times| - 1]);
    }
  }
}

=== FILE: js_strings.dfy ===
/** The few String.prototype operations the page's state machines rely on.
    A JavaScript string is a sequence of UTF-16 code units; here it is a
    Dafny `string`, a sequence of Unicode scalar values. The two agree on
    text inside the Basic Multilingual Plane (and on the ASCII words and
    code of this page); a character outside it is one `char` here but two
    code units in JavaScript, and a lone surrogate has no `char` at all. */
module JsStrings {

  function Min(a: int, b: int): int { if a <= b then a else b }

  function Max(a: int, b: int): int { if a <= b then b else a }

  /** An index as `substring` reads it: negative counts as 0, past the end as the length. */
  function ClampIndex(i: int, len: nat): (r: nat)
    ensures r <= len
    ensures 0 <= i <= len ==> r == i
    ensures i < 0 ==> r == 0
    ensures len < i ==> r == len
  {
    if i < 0 then 0 else if len < i then len else i
  }

  /** `s.substring(start, end)`: both indices are clamped into the string,
      and a start past the end is swapped with it. */
  function Substring(s: string, start: int, end: int): (r: string)
    ensures |r| <= |s|
    ensures 0 <= start <= end <= |s| ==> r == s[start..end]
    ensures start <= 0 ==> r == s[..ClampIndex(end, |s|)]
  {
    var a := ClampIndex(start, |s|);
    var b := ClampIndex(end, |s|);
    if a <= b then s[a..b] else s[b..a]
  }

  /** `substring` does not care about the order of its indices. */
  lemma SubstringSymmetric(s: string, start: int, end: int)
    ensures Substring(s, start, end) == Substring(s, end, start)
  {
  }

  /** `substring` only sees its indices after clamping; with the in-order
      case of its contract and the symmetry above this fixes every result. */
  lemma SubstringClamped(s: string, start: int, end: int)
    ensures Substring(s, start, end) == Substring(s, ClampIndex(start, |s|), ClampIndex(end, |s|))
    ensures var a, b := ClampIndex(start, |s|), ClampIndex(end, |s|);
            Substring(s, start, end) == s[Min(a, b)..Max(a, b)]
  {
  }

  /** `s.slice(start)` with one argument: a negative start counts back from
      the end, so `s.slice(-n)` keeps the last n characters (all of them when
      the string is shorter). */
  function Slice(s: string, start: int): (r: string)
    ensures |r| <= |s|
    ensures r == s[|s| - |r|..]
    ensures start < 0 ==> |r| == Min(-start, |s|)
    ensures 0 <= start ==> |r| == |s| - Min(start, |s|)
  {
    if start < 0 then s[Max(|s| + start, 0)..] else s[Min(start, |s|)..]
  }

  /** The upper-case mapping of one character, for the ASCII letters. */
  function UpperChar(c: char): (u: char)
    ensures 'a' <= c <= 'z' ==> 'A' <= u <= 'Z' && u as int == c as int - 32
    ensures !('a' <= c <= 'z') ==> u == c
  {
    if 'a' <= c <= 'z' then (c as int - 32) as char else c
  }

  /** `s.toUpperCase()`, one character at a time. */
  function ToUpper(s: string): (r: string)
    ensures |r| == |s|
    ensures forall i :: 0 <= i < |s| ==> r[i] == UpperChar(s[i])
  {
    seq(|s|, i requires 0 <= i < |s| => UpperChar(s[i]))
  }
}

=== FILE: typewriter.dfy ===
/** The headline typewriter: it types one of six fixed words a character at
    a time, holds it, deletes it a character at a time, and moves on to the
    next word. The DOM write becomes the returned `text` and the
    `setTimeout` re-arm becomes the returned `delay`. */
module Typewriter {
  import JsStrings

  const Words: seq<string> := [
    "BGMI / PUBG PRO", "MINECRAFT MASTER", "ROBLOX EXPLORER",
    "CLASH STRATEGIST", "ANIME ENTHUSIAST", "ASPHALT 9 RACER"
  ]

  /** Delays in milliseconds before the next step. */
  const HoldDelay: nat := 2000      // a word has been typed completely
  const NextWordDelay: nat := 500   // a word has been deleted completely
  const DeleteDelay: nat := 50
  const TypeDelay: nat := 150

  datatype State = State(wordIndex: int, charIndex: int, isDeleting: bool)

  /** What one call of the step shows and how long it waits. */
  datatype Output = Output(next: State, text: string, delay: nat)

  const Init: State := State(0, 0, false)

  predicate InRange(s: State) {
    0 <= s.wordIndex < |Words|
  }

  /** The states the typewriter can be in between two steps: while typing
      the word is not yet complete, while deleting it is not yet empty. */
  predicate Valid(s: State) {
    && InRange(s)
    && 0 <= s.charIndex <= |Words[s.wordIndex]|
    && (s.isDeleting ==> 1 <= s.charIndex)
    && (!s.isDeleting ==> s.charIndex < |Words[s.wordIndex]|)
  }

  /** One call of `type()`. Only a word index outside the list is excluded:
      there `words[wordIndex]` is undefined and the call throws. */
  function Step(s: State): (o: Output)
    requires InRange(s)
    ensures InRange(o.next)
    // the visible prefix grows or shrinks by exactly one character
    ensures o.next.charIndex == (if s.isDeleting then s.charIndex - 1 else s.charIndex + 1)
    // the word changes only when a deletion empties it, and then to the next word cyclically
    ensures o.next.wordIndex != s.wordIndex <==> s.isDeleting && o.next.charIndex == 0
    ensures o.next.wordIndex != s.wordIndex ==> o.next.wordIndex == (s.wordIndex + 1) % |Words|
    // the mode flips exactly at the two word boundaries, with the long delays
    ensures o.next.isDeleting != s.isDeleting <==> (o.delay == HoldDelay || o.delay == NextWordDelay)
    ensures o.delay == HoldDelay <==> !s.isDeleting && o.next.charIndex == |Words[s.wordIndex]|
    ensures o.delay == NextWordDelay <==> s.isDeleting && o.next.charIndex == 0
    ensures o.delay != HoldDelay && o.delay != NextWordDelay ==>
              o.delay == (if s.isDeleting then DeleteDelay else TypeDelay)
    // the text shown is a prefix of the current word, `charIndex` long when that is within the word
    ensures o.text <= Words[s.wordIndex]
    ensures 0 <= o.next.charIndex <= |Words[s.wordIndex]| ==> |o.text| == o.next.charIndex
  {
    var currentWord := Words[s.wordIndex];
    var text := if s.isDeleting then JsStrings.Substring(currentWord, 0, s.charIndex - 1)
                else JsStrings.Substring(currentWord, 0, s.charIndex + 1);
    var charIndex := if s.isDeleting then s.charIndex - 1 else s.charIndex + 1;
    if !s.isDeleting && charIndex == |currentWord| then
      Output(State(s.wordIndex, charIndex, true), text, HoldDelay)
    else if s.isDeleting && charIndex == 0 then
      Output(State((s.wordIndex + 1) % |Words|, charIndex, false), text, NextWordDelay)
    else
      Output(State(s.wordIndex, charIndex, s.isDeleting), text, if s.isDeleting then DeleteDelay else TypeDelay)
  }

  /** From a reachable state the step reaches a reachable state and shows
      the first `charIndex` characters of its word. */
  lemma StepValid(s: State)
    requires Valid(s)
    ensures Valid(Step(s).next)
    ensures Step(s).text == Words[Step(s).next.wordIndex][..Step(s).next.charIndex]
  {
  }

  /** The state after n steps. */
  function Run(s: State, n: nat): (r: State)
    requires InRange(s)
    ensures InRange(r)
    decreases n
  {
    if n == 0 then s else Run(Step(s).next, n - 1)
  }

  // ---------------------------------------------------------------------
  // An independent description of the reachable states: word w is shown
  // for 2 * |Words[w]| steps, and k counts the steps spent on it so far.
  // ---------------------------------------------------------------------

  function Phases(w: int): nat
    requires 0 <= w < |Words|
  {
    2 * |Words[w]|
  }

  /** The state k steps into the life of word w. */
  function At(w: int, k: nat): State
    requires 0 <= w < |Words| && k < Phases(w)
  {
    if k < |Words[w]| then State(w, k, false) else State(w, Phases(w) - k, true)
  }

  /** How many steps of its word a reachable state is into. */
  function PhaseOf(s: State): nat
    requires Valid(s)
  {
    if s.isDeleting then Phases(s.wordIndex) - s.charIndex else s.charIndex
  }

  /** The reachable states are exactly the phases of the words. */
  lemma AtIsValid(w: int, k: nat)
    requires 0 <= w < |Words| && k < Phases(w)
    ensures Valid(At(w, k))
    ensures PhaseOf(At(w, k)) == k
  {
  }

  lemma ValidIsAt(s: State)
    requires Valid(s)
    ensures PhaseOf(s) < Phases(s.wordIndex)
    ensures At(s.wordIndex, PhaseOf(s)) == s
  {
  }

  /** One step moves one phase on, and off the last phase onto the next word. */
  lemma StepAt(w: int, k: nat)
    requires 0 <= w < |Words| && k < Phases(w)
    ensures k + 1 < Phases(w) ==> Step(At(w, k)).next == At(w, k + 1)
    ensures k + 1 == Phases(w) ==> Step(At(w, k)).next == At((w + 1) % |Words|, 0)
    ensures Step(At(w, k)).text == Words[w][..if k < |Words[w]| then k + 1 else Phases(w) - k - 1]
  {
  }

  lemma {:induction false} RunAdd(s: State, a: nat, b: nat)
    requires InRange(s)
    ensures Run(s, a + b) == Run(Run(s, a), b)
    decreases a
  {
    if a != 0 {
      RunAdd(Step(s).next, a - 1, b);
    }
  }

  /** Within one word, j steps move j phases on. */
  lemma {:induction false} RunWithinWord(w: int, k: nat, j: nat)
    requires 0 <= w < |Words| && k + j < Phases(w)
    ensures Run(At(w, k), j) == At(w, k + j)
    decreases j
  {
    if j != 0 {
      StepAt(w, k);
      RunWithinWord(w, k + 1, j - 1);
    }
  }

  /** Typing and deleting word w takes exactly 2 * |Words[w]| steps and ends
      at the start of the next word. */
  lemma WordCycle(w: int)
    requires 0 <= w < |Words|
    ensures Run(At(w, 0), Phases(w)) == At((w + 1) % |Words|, 0)
  {
    var n := Phases(w);
    RunWithinWord(w, 0, n - 1);
    RunAdd(At(w, 0), n - 1, 1);
    StepAt(w, n - 1);
  }

  /** Steps spent on the first n words. */
  function CycleSteps(n: nat): nat
    requires n <= |Words|
  {
    if n == 0 then 0 else CycleSteps(n - 1) + Phases(n - 1)
  }

  /** From the start of the first word, the steps spent on the first n words
      lead to the start of word n. The start state is a parameter only to
      name `At(0, 0)`; the requires pins it to that state. */
  lemma {:induction false} RunWords(start: State, n: nat)
    requires start == At(0, 0)
    requires n <= |Words|
    ensures Run(start, CycleSteps(n)) == At(n % |Words|, 0)
  {
    if n != 0 {
      var m := n - 1;
      var before := CycleSteps(m);
      RunWords(start, m);
      assert m % |Words| == m;
      var mid := Run(start, before);
      assert mid == At(m, 0);
      assert CycleSteps(n) == before + Phases(m);
      RunAdd(start, before, Phases(m));
      WordCycle(m);
    }
  }

  /** The typewriter is periodic: after showing every word once (186 steps)
      it is back in its initial state. `start` is only a name for `Init`,
      which the requires pins it to. */
  lemma Periodic(start: State)
    requires start == Init
    ensures CycleSteps(|Words|) == 186
    ensures Run(start, CycleSteps(|Words|)) == start
  {
    assert |Words[0]| == 15 && |Words[1]| == 16 && |Words[2]| == 15;
    assert |Words[3]| == 16 && |Words[4]| == 16 && |Words[5]| == 15;
    RunWords(start, |Words|);
  }

  /** Every state the typewriter reaches from its initial state is reachable
      in the sense of `Valid`, whatever the number of steps. */
  lemma {:induction false} RunValid(s: State, n: nat)
    requires Valid(s)
    ensures Valid(Run(s, n))
    decreases n
  {
    if n != 0 {
      StepValid(s);
      RunValid(Step(s).next, n - 1);
    }
  }

  /** Runs the typewriter n steps from the start and records what it shows
      and how long it waits after each step. */
  method Animate(n: nat) returns (texts: seq<string>, delays: seq<nat>)
    ensures |texts| == n && |delays| == n
    // step i shows and waits what `type()` does from the state i steps in
    ensures forall i :: 0 <= i < n ==> texts[i] == Step(Run(Init, i)).text && delays[i] == Step(Run(Init, i)).delay
    ensures forall i :: 0 <= i < n ==>
              exists w :: 0 <= w < |Words| && |texts[i]| <= |Words[w]| && texts[i] == Words[w][..|texts[i]|]
    ensures forall i :: 0 <= i < n ==> delays[i] in {TypeDelay, DeleteDelay, HoldDelay, NextWordDelay}
  {
    var s := Init;
    texts, delays := [], [];
    var i := 0;
    while i < n
      invariant 0 <= i <= n
      invariant s == Run(Init, i)
      invariant Valid(s)
      invariant |texts| == i && |delays| == i
      invariant forall j :: 0 <= j < i ==> texts[j] == Step(Run(Init, j)).text && delays[j] == Step(Run(Init, j)).delay
      invariant forall j :: 0 <= j < i ==>
                  exists w :: 0 <= w < |Words| && |texts[j]| <= |Words[w]| && texts[j] == Words[w][..|texts[j]|]
      invariant forall j :: 0 <= j < i ==> delays[j] in {TypeDelay, DeleteDelay, HoldDelay, NextWordDelay}
    {
      var o := Step(s);
      StepValid(s);
      assert o.text == Words[o.next.wordIndex][..|o.text|];
      texts := texts + [o.text];
      delays := delays + [o.delay];
      RunAdd(Init, i, 1);
      assert Run(s, 1) == o.next;
      s := o.next;
      i := i + 1;
    }
  }
}
